=== FILE: README.md ===
# Storefront logic in Dafny

This project models the small pieces of real logic in a React storefront client: the
thousands-separator formatter `numberWithCommas`, the pagination arithmetic and
fetch state of the product list page, and the variation-selection form and
fetch/add-to-cart state of the product detail page. Everything is a pure function on
immutable values. A network request is reduced to its settled outcome,
`Response<T> = Ok(body) | Failed(cause)`, which the model takes as an input.

Modules:

- `Wrappers` (`wrappers.dfy`): `Option` and the abstract `Response` of a request.
- `Catalog` (`catalog.dfy`): the product, variation and variation-value view models.
- `Utils` (`utils.dfy`): `numberWithCommas`. The regular expression
  `\B(?=(\d{3})+(?!\d))` is written out literally (`RegexMatchesAt`) and as an
  executable test (`CommaBefore`: a digit after a word character whose digit run has
  a length divisible by three). A lemma shows the two agree. The rewrite inserts a
  comma before every such index of the original string (`Interleave`). Further
  lemmas relate it to an independent right-to-left grouping (`GroupThousands`), to
  comma stripping and to splitting on commas.
- `ProductList` (`product_list.dfy`): `TotalPages` is integer ceiling division, and
  `Offset` is the page-to-offset mapping. The list state has `Mount`,
  `MountSettled`, `HandlePageChange` and `PageSettled` transitions. `Run` folds any
  sequence of events from the initial state, and every state it reaches has
  consistent pagination.
- `ProductDetail` (`product_detail.dfy`): the form data is an insertion-ordered
  object, modelled as a sequence of (name, value id) pairs with distinct names.
  `HandleChange` is JavaScript's `{...formData, [name]: value}`, and
  `HandleChangeIsMapUpdate` shows it is a plain map update. `FormatData` is the list
  of values in key order. The toggle, product-fetch and add-to-cart transitions
  complete the module.

Three behaviours of the code that the model keeps:

- A failed product-detail fetch stores the error the request was rejected with as
  `error` (`src/containers/ProductDetail.js:59-61`).
- Only the first list fetch recomputes the page count. A page-change fetch replaces
  only the data (`src/containers/ProductList.js:62-64`).
- No success path clears a previous `error`. The model keeps it unchanged.

## Model

| member | source | states |
|---|---|---|
| Utils.NumberWithCommas | src/utils.js:10-12 | `numberWithCommas`: the output is the input plus exactly one character per insertion point, and stripping commas from both gives the same string |
| Utils.RegexMatchesAt | src/utils.js:11 | the literal reading of `\B(?=(\d{3})+(?!\d))`; a match is never at either end of the string and always sits before at least three digits |
| Utils.CommaBefore | src/utils.js:11 | the executable insertion test; a comma always follows a word character and precedes a run of three or more digits |
| Utils.DigitRun | src/utils.js:11 | `(\d{3})+(?!\d)` looks at the maximal digit run from an index: every character in it is a digit, and the character after it is not a digit or is past the end |
| Utils.RegexMatchesExactly | src/utils.js:11 | `\B(?=(\d{3})+(?!\d))` matches at index i exactly when s[i] is a digit, s[i-1] is a word character, and the digit run from i has length 3k with k ≥ 1 |
| Utils.InsertsOnlyCommas | src/utils.js:10-12 | the replacement only inserts commas: the output is the input with commas put in (`CommasInserted`: every input character, including its own commas, stays in place and in order), stripping commas gives the same content, every added character is a comma, and the output starts and ends with the input's first and last characters |
| Utils.InterleaveInsertsCommas | src/utils.js:11 | copying the string with a comma before each marked index keeps every character of the original in order and adds nothing but commas |
| Utils.CommasInsertedExamples | src/utils.js:11 | the insertion relation is not trivially true: "a,b,c" may become "a,,b,c", but not "a,,bc", where an existing comma has moved |
| Utils.CommaFreeRoundTrip | src/utils.js:11 | for input without commas, deleting every comma from the output gives back the input exactly |
| Utils.InsertedCommasPlacement | src/utils.js:11 | for input without commas, every comma of the output is strictly inside it, after a word character and before a digit, so a leading `-` or `$` is never followed by a comma |
| Utils.ShortDigitsUnchanged | src/utils.js:11 | a string of at most three digits comes back unchanged |
| Utils.DigitsGroupedFromRight | src/utils.js:11 | on a string of digits, the rewrite equals the independent right-to-left grouping in threes |
| Utils.GroupsOfThree | src/utils.js:11 | on a non-empty string of digits, splitting the output on commas gives (n-1)/3+1 groups: the first has 1-3 digits, the rest exactly 3, and together they are the input; there are (n-1)/3 commas |
| Utils.DigitsIdempotent | src/utils.js:11 | on a string of digits, formatting the output again changes nothing |
| Utils.MarksAppend | src/utils.js:11 | insertion points never cross a non-digit: those of x+y are those of x followed by those of y when y starts with a non-digit |
| Utils.FixedTwoFormatting | src/containers/ProductList.js:112-118 | for a `toFixed(2)` string `[-]d+.dd`, the sign, the point and the two decimals are untouched and the integer digits are grouped in threes from the right |
| Utils.FixedTwoCommaCount | src/containers/ProductDetail.js:127-132 | for a `toFixed(2)` string `[-]d+.dd`, the output holds exactly (len(d)-1)/3 commas |
| ProductList.TotalPages | src/containers/ProductList.js:42 | `Math.ceil(count / limit)`: the pages hold every item (`pages*limit >= count`), the last page is non-empty (`(pages-1)*limit < count` when count > 0), and count 0 gives 0 pages |
| ProductList.TotalPagesIsCeiling | src/containers/ProductList.js:42 | any page count meeting both bounds is the computed one, so the bounds characterise the ceiling |
| ProductList.TotalPagesExamples | src/containers/ProductList.js:31-42 | with the page size 16, count 0 gives 0 pages and count 33 gives 3 |
| ProductList.Offset | src/containers/ProductList.js:55 | `(activePage - 1) * limit`: page 1 starts at offset 0 and no page numbered from 1 has a negative offset |
| ProductList.OffsetRecoversPage | src/containers/ProductList.js:55 | for a positive limit the offset is a whole number of pages, and dividing it by the limit gives back `activePage - 1`, so distinct pages get distinct offsets |
| ProductList.OffsetsStepByLimit | src/containers/ProductList.js:55 | page 1 has offset 0, and consecutive pages' offsets differ by exactly the limit |
| ProductList.ValidPageStartsInside | src/containers/ProductList.js:52-56 | for every page 1 ≤ p ≤ totalPage, the offset `(p-1)*limit` is non-negative and below count |
| ProductList.Initial | src/containers/ProductList.js:24-33 | the initial state is not loading, has no error and no data, and its empty pagination (count 0, 0 pages, limit 16) is already consistent |
| ProductList.Mount | src/containers/ProductList.js:35-36 | mounting sets `loading` and changes nothing else |
| ProductList.MountSettled | src/containers/ProductList.js:37-49 | success stores the results and the count, with the page count exactly `TotalPages(count, limit)` (so 0 for an empty catalogue, and it meets the ceiling bounds); failure sets the fixed "Server is sleeping" error and keeps data and pagination; `loading` ends either way |
| ProductList.HandlePageChange | src/containers/ProductList.js:52-59 | the query uses the current limit and exactly the offset `Offset(activePage, limit)` = `(activePage-1)*limit` (0 for page 1, non-negative for pages ≥ 1), so the lemmas about `Offset` apply to the query sent; the fetch starts without touching pagination, data or error |
| ProductList.PageSettled | src/containers/ProductList.js:60-67 | pagination never changes; success replaces only data and loading; failure sets the fixed error and keeps the data |
| ProductList.StepConsistent | src/containers/ProductList.js:40-45 | every transition preserves `totalPage == ceil(count / 16)` and the limit 16 |
| ProductList.Run | src/containers/ProductList.js:24-33 | every state reachable from the initial state by any sequence of events has consistent pagination |
| ProductList.ReachablePagesStartInside | src/containers/ProductList.js:52-56 | in every reachable state, each page the paginator offers is fetched with limit 16 and offset `(page-1)*16`, which lies inside the list |
| ProductDetail.Keys | src/containers/ProductDetail.js:66 | `Object.keys(formData)`: one key per entry, in insertion order |
| ProductDetail.IndexOf | src/containers/ProductDetail.js:89-92 | the position of a key in the object, or its absence |
| ProductDetail.Lookup | src/containers/ProductDetail.js:175 | `formData[name]` read as an own property: defined exactly for the selected keys, with the value stored under that key |
| ProductDetail.HandleChange | src/containers/ProductDetail.js:87-94 | after the update, `name` maps to `value` and every other key keeps its value; re-selecting keeps the keys, their order and their count; a new name is appended and the count grows by one |
| ProductDetail.HandleChangeIsMapUpdate | src/containers/ProductDetail.js:89-92 | read as a plain map, the spread-then-assign is exactly the single-key update `m[name := value]` |
| ProductDetail.FormatData | src/containers/ProductDetail.js:64-69 | one entry per key; entry i is the value stored under the i-th key in insertion order |
| ProductDetail.FormatAfterFirstSelection | src/containers/ProductDetail.js:64-69 | after selecting a new variation, the formatted list is the old list with the value appended |
| ProductDetail.FormatAfterReselection | src/containers/ProductDetail.js:87-94 | after re-selecting the i-th variation, the formatted list is the old list with position i replaced |
| ProductDetail.Initial | src/containers/ProductDetail.js:29-35 | the initial state is not loading, has no error, no product, a hidden form, no selection for any name (so the submitted list is empty) and no cart refresh |
| ProductDetail.HandleToggleForm | src/containers/ProductDetail.js:41-46 | `formVisible` is negated and nothing else changes |
| ProductDetail.ToggleTwiceRestores | src/containers/ProductDetail.js:41-46 | toggling twice restores the state |
| ProductDetail.SelectVariation | src/containers/ProductDetail.js:87-94 | a drop-down selection replaces the form data by its update and changes nothing else |
| ProductDetail.StartFetchItem | src/containers/ProductDetail.js:48-53 | the product fetch sets `loading` and changes nothing else |
| ProductDetail.FetchItemSettled | src/containers/ProductDetail.js:54-61 | success stores the product; failure stores the rejection error as `error` and keeps the data; `loading` ends; the form and cart count are untouched |
| ProductDetail.StartAddToCart | src/containers/ProductDetail.js:71-77 | the request carries the slug and one value per selected key in key order; `loading` starts and nothing else changes |
| ProductDetail.AddToCartSettled | src/containers/ProductDetail.js:78-84 | success dispatches exactly one cart refresh; any failure sets exactly "Please login to continue !!!"; `loading` ends; form, data and visibility are untouched |
| ProductDetail.AddToCartRound | src/containers/ProductDetail.js:71-85 | a whole round submits `handleFormatData(formData)`, and the settled state differs from the original only in `loading: false` plus one refresh (success) or the login error (failure) |

## Left out

- `src/containers/Home.js`: static responsive layout. `getWidth` reads the window width, and there is no logic to model.
- `authAxios` and every HTTP call: the base URL, the token read from local storage, headers and promises. A request is an abstract `Response` input. The URLs are reduced to the fields that vary: the page query's limit and offset, and the cart request's slug and variations.
- Concurrency of requests: settled responses arrive as events in any order. Nothing ties a response to the request that caused it, just as the source does not.
- JSX rendering, Semantic UI components, `dangerouslySetInnerHTML`, the discount-price label branch, router navigation and `console.log`.
- Float formatting: `toFixed(2)` and `parseInt` produce the string the formatter receives, which is a parameter here. `x.toString()` on a string is the identity. `Math.ceil` on a float quotient is modelled as integer ceiling division on a non-negative count. This is exact as long as the count fits a float's integer range.
- `v.name.toLowerCase()` before a selection: the model takes the name as given, with no case folding.
- JavaScript orders integer-like object keys numerically ahead of string keys. Variation names are assumed non-numeric, so keys keep insertion order.
- The Redux `fetchCart` dispatch: modelled only as a counter of refresh requests (`cartRefreshes`).
- The route parameter `productID` of the detail fetch: the URL is not modelled, only the settled outcome.
- Utils.DigitsIdempotent: idempotence is stated for all-digit inputs only, the inputs it is claimed for. Other strings are not covered.
- ProductDetail.Lookup: reads own keys only. In JavaScript, `formData[name]` for an unselected name that `Object.prototype` supplies, such as `constructor` or `__proto__`, gives an inherited value rather than `undefined`. The model assumes variation names are never such property names.

=== FILE: catalog.dfy ===
/** The view models the storefront fetches from its REST backend. They are transient:
    the client keeps them only as component state and enforces no invariant on them. */
module Catalog {
  import opened Wrappers

  /** One selectable value of a variation, e.g. "Red" for the variation "Color". */
  datatype VariationValue = VariationValue(id: int, value: string, attachment: Option<string>)

  /** A product attribute category with its selectable values. */
  datatype Variation = Variation(id: int, name: string, values: seq<VariationValue>)

  /** A product as returned by the list and detail endpoints. Prices are decimal
      amounts; their float formatting is not part of the model. */
  datatype Product = Product(
    id: int,
    slug: string,
    title: string,
    image: string,
    category: string,
    price: real,
    discountPrice: Option<real>,
    description: string,
    variations: seq<Variation>)
}

=== FILE: product_detail.dfy ===
/** The product detail page: the variation-selection form and the fetch and
    add-to-cart transitions of its state.

    The selections live in a JavaScript object keyed by lower-case variation name.
    Such an object keeps its keys in insertion order (for the non-numeric names used
    here), so it is modelled as a sequence of (name, value id) pairs with distinct
    names. */
module ProductDetail {
  import opened Wrappers
  import opened Catalog

  /** The error shown for every failed add-to-cart request. */
  const LoginMessage: string := "Please login to continue !!!"

  // ---------------------------------------------------------------------------
  // The selection form: an insertion-ordered object
  // ---------------------------------------------------------------------------

  predicate DistinctKeys(fd: seq<(string, int)>) {
    forall i, j :: 0 <= i < j < |fd| ==> fd[i].0 != fd[j].0
  }

  /** `formData`: selected variation value id per variation name, in the order the
      names were first selected. */
  type FormData = fd: seq<(string, int)> | DistinctKeys(fd) witness []

  /** `Object.keys(formData)`. */
  function Keys(fd: seq<(string, int)>): (ks: seq<string>)
    ensures |ks| == |fd|
    ensures forall i :: 0 <= i < |fd| ==> ks[i] == fd[i].0
  {
    seq(|fd|, i requires 0 <= i < |fd| => fd[i].0)
  }

  /** Where `name` sits among the keys, if it is one. */
  function IndexOf(fd: FormData, name: string): (r: Option<nat>)
    ensures r.Some? ==> r.value < |fd| && fd[r.value].0 == name
    ensures r.None? ==> name !in Keys(fd)
    decreases |fd|
  {
    if |fd| == 0 then None
    else if fd[|fd| - 1].0 == name then Some(|fd| - 1)
    else IndexOf(fd[..|fd| - 1], name)
  }

  /** `formData[name]`, or `undefined`. */
  function Lookup(fd: FormData, name: string): (r: Option<int>)
    ensures r.Some? <==> name in Keys(fd)
    ensures forall i :: 0 <= i < |fd| && fd[i].0 == name ==> r == Some(fd[i].1)
  {
    match IndexOf(fd, name)
    case Some(i) => Some(fd[i].1)
    case None => None
  }

  /** `{...formData, [name]: value}`: a key already present keeps its position and
      takes the new value; a new key goes at the end. */
  function HandleChange(fd: FormData, name: string, value: int): (r: FormData)
    // the selected name now maps to the selected value
    ensures Lookup(r, name) == Some(value)
    // every other name keeps what it had, including having nothing
    ensures forall k :: k != name ==> Lookup(r, k) == Lookup(fd, k)
    // re-selecting keeps the keys, their order and their count
    ensures name in Keys(fd) ==> Keys(r) == Keys(fd)
    // a first selection appends its name and adds exactly one key
    ensures name !in Keys(fd) ==> Keys(r) == Keys(fd) + [name] && |r| == |fd| + 1
  {
    match IndexOf(fd, name)
    case Some(i) =>
      var r := fd[i := (name, value)];
      assert Keys(r) == Keys(fd);
      r
    case None =>
      var r := fd + [(name, value)];
      assert Keys(r) == Keys(fd) + [name];
      r
  }

  /** `handleFormatData`: the selected value ids, one per key, in key order. */
  function FormatData(fd: FormData): (vs: seq<int>)
    ensures |vs| == |Keys(fd)|
    ensures forall i :: 0 <= i < |fd| ==> Lookup(fd, Keys(fd)[i]) == Some(vs[i])
  {
    seq(|fd|, i requires 0 <= i < |fd| => fd[i].1)
  }

  /** The object the pairs stand for. */
  function ToMap(fd: FormData): map<string, int> {
    map i | 0 <= i < |fd| :: fd[i].0 := fd[i].1
  }

  lemma ToMapLookup(fd: FormData, k: string)
    ensures k in ToMap(fd) <==> Lookup(fd, k).Some?
    ensures k in ToMap(fd) ==> ToMap(fd)[k] == Lookup(fd, k).value
  {
    if k in ToMap(fd) {
      var i :| 0 <= i < |fd| && fd[i].0 == k;
    }
  }

  lemma HandleChangeAtKey(fd: FormData, name: string, value: int, k: string)
    ensures var m1, m2 := ToMap(HandleChange(fd, name, value)), ToMap(fd)[name := value];
      (k in m1 <==> k in m2) && (k in m1 ==> m1[k] == m2[k])
  {
    ToMapLookup(HandleChange(fd, name, value), k);
    if k != name {
      ToMapLookup(fd, k);
    }
  }

  /** As a plain map, `HandleChange` is the single-key update of JavaScript's
      spread-then-assign. */
  lemma HandleChangeIsMapUpdate(fd: FormData, name: string, value: int)
    ensures ToMap(HandleChange(fd, name, value)) == ToMap(fd)[name := value]
  {
    var m1, m2 := ToMap(HandleChange(fd, name, value)), ToMap(fd)[name := value];
    forall k
      ensures (k in m1 <==> k in m2) && (k in m1 ==> m1[k] == m2[k])
    {
      HandleChangeAtKey(fd, name, value, k);
    }
    assert m1.Keys == m2.Keys;
  }

  /** Selecting a variation for the first time appends its value to the submitted
      list. */
  lemma FormatAfterFirstSelection(fd: FormData, name: string, value: int)
    requires name !in Keys(fd)
    ensures FormatData(HandleChange(fd, name, value)) == FormatData(fd) + [value]
  {
    var r := HandleChange(fd, name, value);
    assert r == fd + [(name, value)];
  }

  /** Re-selecting a variation replaces its value in place in the submitted list. */
  lemma FormatAfterReselection(fd: FormData, i: nat, value: int)
    requires i < |fd|
    ensures FormatData(HandleChange(fd, fd[i].0, value)) == FormatData(fd)[i := value]
  {
    var r := HandleChange(fd, fd[i].0, value);
    assert r == fd[i := (fd[i].0, value)];
  }

  // ---------------------------------------------------------------------------
  // The detail view's state
  // ---------------------------------------------------------------------------

  /** What `error` can hold: the error a failed product fetch was rejected with
      or a message (a failed add-to-cart). */
  datatype DetailError = RequestFailed(cause: string) | Message(text: string)

  /** The body of an add-to-cart request. */
  datatype CartRequest = CartRequest(slug: string, variations: seq<int>)

  /** `data` starts as an empty placeholder and holds the product once fetched;
      `cartRefreshes` counts the cart refreshes dispatched to the store. */
  datatype DetailState = DetailState(
    loading: bool,
    error: Option<DetailError>,
    formVisible: bool,
    data: Option<Product>,
    formData: FormData,
    cartRefreshes: nat)

  /** Nothing fetched, nothing selected, the form hidden and no cart refresh yet. */
  function Initial(): (s: DetailState)
    ensures !s.loading && s.error.None? && !s.formVisible && s.data.None?
    ensures forall name :: Lookup(s.formData, name).None?
    ensures FormatData(s.formData) == []
    ensures s.cartRefreshes == 0
  {
    DetailState(false, None, false, None, [], 0)
  }

  /** The "Add to cart" button shows or hides the form and changes nothing else. */
  function HandleToggleForm(s: DetailState): (r: DetailState)
    ensures r.formVisible == !s.formVisible
    ensures r.(formVisible := s.formVisible) == s
  {
    s.(formVisible := !s.formVisible)
  }

  lemma ToggleTwiceRestores(s: DetailState)
    ensures HandleToggleForm(HandleToggleForm(s)) == s
  {
  }

  /** A selection in one of the form's drop-downs. */
  function SelectVariation(s: DetailState, name: string, value: int): (r: DetailState)
    ensures r.formData == HandleChange(s.formData, name, value)
    ensures r.(formData := s.formData) == s
  {
    s.(formData := HandleChange(s.formData, name, value))
  }

  /** Mounting starts the product fetch. */
  function StartFetchItem(s: DetailState): (r: DetailState)
    ensures r.loading && r.(loading := s.loading) == s
  {
    s.(loading := true)
  }

  /** The product fetch settles: the product on success, the rejection error as
      the error on failure; loading ends either way. */
  function FetchItemSettled(s: DetailState, resp: Response<Product>): (r: DetailState)
    ensures !r.loading
    ensures r.formData == s.formData && r.formVisible == s.formVisible
    ensures r.cartRefreshes == s.cartRefreshes
    ensures resp.Ok? ==> r.data == Some(resp.body) && r.error == s.error
    ensures resp.Failed? ==> r.error == Some(RequestFailed(resp.cause)) && r.data == s.data
  {
    match resp
    case Ok(product) => s.(data := Some(product), loading := false)
    case Failed(cause) => s.(error := Some(RequestFailed(cause)), loading := false)
  }

  /** Submitting the form: the request carries the slug and the selected values in
      selection order, and loading starts. */
  function StartAddToCart(s: DetailState, slug: string): (r: (CartRequest, DetailState))
    ensures r.0.slug == slug
    ensures |r.0.variations| == |s.formData|
    ensures forall i :: 0 <= i < |s.formData| ==>
      Lookup(s.formData, Keys(s.formData)[i]) == Some(r.0.variations[i])
    ensures r.1.loading && r.1.(loading := s.loading) == s
  {
    (CartRequest(slug, FormatData(s.formData)), s.(loading := true))
  }

  /** The add-to-cart request settles: success dispatches one cart refresh; any
      failure shows the login message. Loading ends either way. */
  function AddToCartSettled(s: DetailState, resp: Response<()>): (r: DetailState)
    ensures !r.loading
    ensures r.formData == s.formData && r.data == s.data && r.formVisible == s.formVisible
    ensures resp.Ok? ==> r.cartRefreshes == s.cartRefreshes + 1 && r.error == s.error
    ensures resp.Failed? ==>
      r.cartRefreshes == s.cartRefreshes && r.error == Some(Message(LoginMessage))
  {
    match resp
    case Ok(_) => s.(cartRefreshes := s.cartRefreshes + 1, loading := false)
    case Failed(_) => s.(error := Some(Message(LoginMessage)), loading := false)
  }

  /** A whole add-to-cart round: the request submits exactly the formatted form
      data, and the settled state differs from the one before only in `loading`
      and, by outcome, in one more cart refresh or the login error. */
  lemma AddToCartRound(s: DetailState, slug: string, resp: Response<()>)
    ensures var (req, started) := StartAddToCart(s, slug);
      var r := AddToCartSettled(started, resp);
      && req == CartRequest(slug, FormatData(s.formData))
      && !r.loading
      && (resp.Ok? ==> r == s.(loading := false, cartRefreshes := s.cartRefreshes + 1))
      && (resp.Failed? ==> r == s.(loading := false, error := Some(Message(LoginMessage))))
  {
  }
}

=== FILE: product_list.dfy ===
/** The product list page: its pagination arithmetic and the loading / error /
    data / pagination state it keeps across fetches.

    Every fetch is split into the call that starts it (which sets `loading`) and the
    call that settles it with an abstract network `Response`. */
module ProductList {
  import opened Wrappers
  import opened Catalog

  /** The page size the list view starts with and never changes. */
  const PageSize: nat := 16

  /** The message shown for every failed list fetch. */
  const SleepingMessage: string := "Server is sleeping. Please wait a minute !!!"

  // ---------------------------------------------------------------------------
  // Pagination arithmetic
  // ---------------------------------------------------------------------------

  /** `Math.ceil(count / limit)` on a non-negative count and a positive limit: the
      fewest pages of `limit` items that hold `count` items. */
  function TotalPages(count: nat, limit: nat): (pages: nat)
    requires limit > 0
    // enough pages for every item
    ensures pages * limit >= count
    // and no page more than that: the last page is not empty
    ensures count > 0 ==> (pages - 1) * limit < count
    ensures count == 0 ==> pages == 0
  {
    (count + limit - 1) / limit
  }

  /** The number of pages is determined by the two bounds above. */
  lemma TotalPagesIsCeiling(count: nat, limit: nat, pages: nat)
    requires limit > 0
    requires pages * limit >= count
    requires count > 0 ==> (pages - 1) * limit < count
    requires count == 0 ==> pages == 0
    ensures pages == TotalPages(count, limit)
  {
    var t := TotalPages(count, limit);
    if count > 0 {
      if pages < t {
        MulMonotone(pages, t - 1, limit);
      } else if pages > t {
        MulMonotone(t, pages - 1, limit);
      }
    }
  }

  /** Multiplying by a non-negative number keeps order; a separate lemma so the
      case splits above and below stay cheap. */
  lemma MulMonotone(a: int, b: int, c: nat)
    requires a <= b
    ensures a * c <= b * c
  {
  }

  /** With the page size the list uses, an empty catalogue has no pages and 33
      products need three. */
  lemma TotalPagesExamples()
    ensures TotalPages(0, PageSize) == 0
    ensures TotalPages(33, PageSize) == 3
  {
  }

  /** `(activePage - 1) * limit`: how many items the pages before `page` hold. */
  function Offset(page: int, limit: nat): (offset: int)
    // pages are numbered from 1, and page 1 starts at the first item
    ensures page == 1 ==> offset == 0
    ensures page >= 1 ==> offset >= 0
  {
    (page - 1) * limit
  }

  /** The offset is a whole number of pages, and the page number can be read back
      from it. */
  lemma OffsetRecoversPage(page: int, limit: nat)
    requires limit > 0
    ensures Offset(page, limit) % limit == 0
    ensures Offset(page, limit) / limit == page - 1
  {
    var o := Offset(page, limit);
    var k := (page - 1) - o / limit;
    // o is both (page - 1) * limit and (o / limit) * limit + o % limit, so
    // k * limit is the remainder, which lies in [0, limit)
    assert k * limit == o % limit;
  }

  /** Page 1 starts at the first item and each page starts `limit` items after the
      previous one. */
  lemma OffsetsStepByLimit(page: int, limit: nat)
    ensures Offset(1, limit) == 0
    ensures Offset(page + 1, limit) - Offset(page, limit) == limit
  {
  }

  /** No page the paginator offers starts past the end of the list. */
  lemma ValidPageStartsInside(count: nat, limit: nat, page: int)
    requires limit > 0
    requires 1 <= page <= TotalPages(count, limit)
    ensures 0 <= Offset(page, limit) < count
  {
    MulMonotone(page - 1, TotalPages(count, limit) - 1, limit);
  }

  // ---------------------------------------------------------------------------
  // The list view's state
  // ---------------------------------------------------------------------------

  /** A page size; the view divides by it, so it is never zero. */
  type PageLimit = n: nat | n > 0 witness PageSize

  datatype Pagination = Pagination(totalPage: nat, count: nat, limit: PageLimit)

  /** The response body of the list endpoint: the total count and one page. */
  datatype ListPage = ListPage(count: nat, results: seq<Product>)

  /** The query string of a page fetch: `?limit=..&offset=..`. */
  datatype PageQuery = PageQuery(limit: nat, offset: int)

  datatype ListState = ListState(
    loading: bool,
    error: Option<string>,
    data: seq<Product>,
    pagination: Pagination)

  /** The component's initial state. */
  function Initial(): (s: ListState)
    ensures Consistent(s)
    ensures !s.loading && s.error.None? && s.data == []
    ensures s.pagination.count == 0 && s.pagination.totalPage == 0
  {
    ListState(false, None, [], Pagination(0, 0, PageSize))
  }

  /** Pagination agrees with the count it was computed from, at the fixed page size. */
  predicate Consistent(s: ListState) {
    && s.pagination.limit == PageSize
    && s.pagination.totalPage == TotalPages(s.pagination.count, PageSize)
  }

  /** Mounting starts the first fetch. */
  function Mount(s: ListState): (r: ListState)
    ensures r.loading
    ensures r.error == s.error && r.data == s.data && r.pagination == s.pagination
  {
    s.(loading := true)
  }

  /** The first fetch settles: on success it stores the page and recomputes the
      pagination from the returned count; on failure it reports the server error
      and keeps the previous data. */
  function MountSettled(s: ListState, resp: Response<ListPage>): (r: ListState)
    ensures !r.loading
    ensures r.pagination.limit == s.pagination.limit
    ensures resp.Ok? ==>
      && r.data == resp.body.results
      && r.pagination.count == resp.body.count
      && r.pagination.totalPage == TotalPages(resp.body.count, s.pagination.limit)
      // corollaries of the line above and the contract of TotalPages, spelled out
      // because they are what the paginator relies on
      && r.pagination.totalPage * r.pagination.limit >= r.pagination.count
      && (r.pagination.count > 0 ==> (r.pagination.totalPage - 1) * r.pagination.limit < r.pagination.count)
      && r.error == s.error
    ensures resp.Failed? ==>
      r.error == Some(SleepingMessage) && r.data == s.data && r.pagination == s.pagination
  {
    match resp
    case Ok(page) =>
      var p := s.pagination.(count := page.count,
                             totalPage := TotalPages(page.count, s.pagination.limit));
      s.(data := page.results, loading := false, pagination := p)
    case Failed(_) =>
      s.(error := Some(SleepingMessage), loading := false)
  }

  /** A click on page `activePage`: the query for that page, and the state with the
      fetch started. */
  function HandlePageChange(s: ListState, activePage: int): (r: (PageQuery, ListState))
    ensures r.0.limit == s.pagination.limit
    // the query asks for the page's items: those after the `activePage - 1` full
    // pages in front of it
    ensures r.0.offset == Offset(activePage, r.0.limit)
    // corollaries of the line above and the contract of Offset: the first page
    // starts at the first item and no page starts before it
    ensures activePage >= 1 ==> r.0.offset >= 0
    ensures activePage == 1 ==> r.0.offset == 0
    ensures r.1.loading
    ensures r.1.pagination == s.pagination && r.1.data == s.data && r.1.error == s.error
  {
    var limit := s.pagination.limit;
    (PageQuery(limit, Offset(activePage, limit)), s.(loading := true))
  }

  /** A page fetch settles: only the data and the loading flag change on success;
      a failure reports the server error and keeps the previous data. Pagination is
      never touched. */
  function PageSettled(s: ListState, resp: Response<ListPage>): (r: ListState)
    ensures !r.loading
    ensures r.pagination == s.pagination
    ensures resp.Ok? ==> r.data == resp.body.results && r.error == s.error
    ensures resp.Failed? ==> r.error == Some(SleepingMessage) && r.data == s.data
  {
    match resp
    case Ok(page) => s.(data := page.results, loading := false)
    case Failed(_) => s.(error := Some(SleepingMessage), loading := false)
  }

  // ---------------------------------------------------------------------------
  // Runs of events
  // ---------------------------------------------------------------------------

  datatype Event =
    | MountEvent
    | MountDone(resp: Response<ListPage>)
    | PageClick(activePage: int)
    | PageDone(resp: Response<ListPage>)

  function Step(s: ListState, e: Event): ListState
  {
    match e
    case MountEvent => Mount(s)
    case MountDone(resp) => MountSettled(s, resp)
    case PageClick(p) => HandlePageChange(s, p).1
    case PageDone(resp) => PageSettled(s, resp)
  }

  /** Every transition keeps the pagination consistent. */
  lemma StepConsistent(s: ListState, e: Event)
    requires Consistent(s)
    ensures Consistent(Step(s, e))
  {
    if e.MountDone? && e.resp.Ok? {
      var r := Step(s, e);
      TotalPagesIsCeiling(r.pagination.count, PageSize, r.pagination.totalPage);
    }
  }

  /** The state after a sequence of events, in order, from the initial state. */
  function Run(events: seq<Event>): (s: ListState)
    ensures Consistent(s)
    decreases |events|
  {
    if |events| == 0 then Initial()
    else
      var prev := Run(events[..|events| - 1]);
      StepConsistent(prev, events[|events| - 1]);
      Step(prev, events[|events| - 1])
  }

  /** In every reachable state, each page the paginator offers is fetched with the
      page size and an offset that lies inside the list. */
  lemma ReachablePagesStartInside(events: seq<Event>, page: int)
    requires 1 <= page <= Run(events).pagination.totalPage
    ensures var s := Run(events);
      var q := HandlePageChange(s, page).0;
      && q.limit == PageSize
      && q.offset == Offset(page, PageSize)
      && 0 <= q.offset < s.pagination.count
  {
    var s := Run(events);
    ValidPageStartsInside(s.pagination.count, PageSize, page);
  }
}

=== FILE: utils.dfy ===
/** The thousands-separator formatter `numberWithCommas`.

    The source rewrites its argument with the global regular expression
    `\B(?=(\d{3})+(?!\d))` and the replacement ",". Every match is empty, so the
    rewrite inserts one comma at each index of the ORIGINAL string where the
    expression matches, and changes nothing else. `\d` is `[0-9]` and word
    characters are `[A-Za-z0-9_]` (the expression has no `u` flag). */
module Utils {

  predicate IsDigit(c: char) {
    '0' <= c <= '9'
  }

  predicate IsWordChar(c: char) {
    IsDigit(c) || 'a' <= c <= 'z' || 'A' <= c <= 'Z' || c == '_'
  }

  predicate AllDigits(s: seq<char>) {
    forall j :: 0 <= j < |s| ==> IsDigit(s[j])
  }

  // ---------------------------------------------------------------------------
  // The regular expression, read literally
  // ---------------------------------------------------------------------------

  /** `\B` holds at index i when the characters on both sides of i are both word
      characters or both not; outside the string counts as a non-word character. */
  predicate NonBoundary(s: seq<char>, i: nat)
    requires i <= |s|
  {
    (0 < i && IsWordChar(s[i - 1])) == (i < |s| && IsWordChar(s[i]))
  }

  /** `(\d{3})+(?!\d)` matches at index i using k repetitions of the group. */
  ghost predicate DigitGroupsAt(s: seq<char>, i: nat, k: nat)
    requires i <= |s|
  {
    && 1 <= k
    && i + 3 * k <= |s|
    && (forall j :: i <= j < i + 3 * k ==> IsDigit(s[j]))
    && (i + 3 * k == |s| || !IsDigit(s[i + 3 * k]))
  }

  /** The whole expression matches the empty string at index i. */
  ghost predicate RegexMatchesAt(s: seq<char>, i: nat): (b: bool)
    requires i <= |s|
    // never at either end of the string, and always before at least three digits
    ensures b ==> 0 < i < |s| && i + 3 <= |s|
    ensures b ==> forall j :: i <= j < i + 3 ==> IsDigit(s[j])
  {
    NonBoundary(s, i) && exists k: nat :: DigitGroupsAt(s, i, k)
  }

  // ---------------------------------------------------------------------------
  // The executable reading
  // ---------------------------------------------------------------------------

  /** Length of the maximal run of digits that starts at index i. */
  function DigitRun(s: seq<char>, i: nat): (r: nat)
    requires i <= |s|
    ensures i + r <= |s|
    ensures forall j :: i <= j < i + r ==> IsDigit(s[j])
    ensures i + r == |s| || !IsDigit(s[i + r])
    decreases |s| - i
  {
    if i < |s| && IsDigit(s[i]) then 1 + DigitRun(s, i + 1) else 0
  }

  /** A comma goes in before s[i]: s[i] is a digit preceded by a word character, and
      the digit run starting at s[i] has a length that is a multiple of three. */
  predicate CommaBefore(s: seq<char>, i: nat): (b: bool)
    requires i <= |s|
    // a comma always has a word character before it and three or more digits after
    ensures b ==> 0 < i && IsWordChar(s[i - 1]) && DigitRun(s, i) >= 3
  {
    0 < i < |s| && IsDigit(s[i]) && IsWordChar(s[i - 1]) && DigitRun(s, i) % 3 == 0
  }

  /** Which characters of s receive a comma in front of them. */
  function Marks(s: seq<char>): (m: seq<bool>)
    ensures |m| == |s|
  {
    seq(|s|, i requires 0 <= i < |s| => CommaBefore(s, i))
  }

  /** Copies s, putting a comma in front of every character whose mark is set. */
  function Interleave(s: seq<char>, marks: seq<bool>): seq<char>
    requires |marks| == |s|
    decreases |s|
  {
    if |s| == 0 then []
    else
      var n := |s| - 1;
      Interleave(s[..n], marks[..n]) + (if marks[n] then [',', s[n]] else [s[n]])
  }

  /** The last character is never a comma Interleave put in; the first is one exactly
      when the first mark is set. */
  lemma {:induction false} InterleaveEnds(s: seq<char>, marks: seq<bool>)
    requires |marks| == |s| && |s| > 0
    ensures var r := Interleave(s, marks);
      |r| > 0 && r[|r| - 1] == s[|s| - 1] && r[0] == (if marks[0] then ',' else s[0])
    decreases |s|
  {
    var n := |s| - 1;
    if n > 0 {
      InterleaveEnds(s[..n], marks[..n]);
    }
  }

  /** Interleave adds exactly one character per mark. */
  lemma {:induction false} InterleaveLength(s: seq<char>, marks: seq<bool>)
    requires |marks| == |s|
    ensures |Interleave(s, marks)| == |s| + CountMarks(marks)
    decreases |s|
  {
    if |s| > 0 {
      var n := |s| - 1;
      InterleaveLength(s[..n], marks[..n]);
      assert marks[..|marks| - 1] == marks[..n];
    }
  }

  /** Stripping commas undoes Interleave. */
  lemma {:induction false} InterleaveStripped(s: seq<char>, marks: seq<bool>)
    requires |marks| == |s|
    ensures StripCommas(Interleave(s, marks)) == StripCommas(s)
    decreases |s|
  {
    if |s| > 0 {
      var n := |s| - 1;
      var s', tail := s[..n], if marks[n] then [',', s[n]] else [s[n]];
      var r' := Interleave(s', marks[..n]);
      calc {
        StripCommas(Interleave(s, marks));
        StripCommas(r' + tail);
        { StripCommasAppend(r', tail); }
        StripCommas(r') + StripCommas(tail);
        { InterleaveStripped(s', marks[..n]); }
        StripCommas(s') + StripCommas(tail);
        { assert [',', s[n]][..1] == [','] && [','][..0] == []; }
        StripCommas(s') + StripCommas([s[n]]);
        { StripCommasAppend(s', [s[n]]); assert s' + [s[n]] == s; }
        StripCommas(s);
      }
    }
  }

  /** Interleave adds one comma per mark. */
  lemma InterleaveCommaCount(s: seq<char>, marks: seq<bool>)
    requires |marks| == |s|
    ensures CommaCount(Interleave(s, marks)) == CommaCount(s) + CountMarks(marks)
  {
    InterleaveLength(s, marks);
    InterleaveStripped(s, marks);
  }

  /** r is s with zero or more commas put in: reading both from the end, each
      character of r either is the next character of s or is an extra comma. */
  predicate CommasInserted(s: seq<char>, r: seq<char>)
    decreases |r|
  {
    if |r| == 0 then |s| == 0
    else
      || (|s| > 0 && r[|r| - 1] == s[|s| - 1] && CommasInserted(s[..|s| - 1], r[..|r| - 1]))
      || (r[|r| - 1] == ',' && CommasInserted(s, r[..|r| - 1]))
  }

  /** Inserting commas allows no other change: "a,b,c" can become "a,,b,c", but not
      "a,,bc", where a comma the input already had has moved. */
  lemma CommasInsertedExamples()
    ensures CommasInserted("a,b,c", "a,,b,c")
    ensures !CommasInserted("a,b,c", "a,,bc")
  {
    assert "a,,bc"[..4] == "a,,b" && "a,b,c"[..4] == "a,b,";
    assert !CommasInserted("a,b,", "a,,b");
    assert "a,,b,c"[..5] == "a,,b," && "a,b,c"[..4] == "a,b,";
    assert "a,,b,"[..4] == "a,,b" && "a,b,"[..3] == "a,b";
    assert "a,,b"[..3] == "a,," && "a,b"[..2] == "a,";
    assert "a,,"[..2] == "a," && "a,"[..1] == "a";
    assert "a,"[..1] == "a" && "a"[..0] == [];
    assert CommasInserted("a", "a");
    assert CommasInserted("a", "a,");
    assert CommasInserted("a,", "a,,");
    assert CommasInserted("a,b", "a,,b");
    assert CommasInserted("a,b,", "a,,b,");
  }

  /** Interleave keeps every character of s, in place and in order, and only puts
      commas between them. */
  lemma {:induction false} InterleaveInsertsCommas(s: seq<char>, marks: seq<bool>)
    requires |marks| == |s|
    ensures CommasInserted(s, Interleave(s, marks))
    decreases |s|
  {
    if |s| > 0 {
      var n := |s| - 1;
      var r' := Interleave(s[..n], marks[..n]);
      var r := Interleave(s, marks);
      InterleaveInsertsCommas(s[..n], marks[..n]);
      if marks[n] {
        assert r == (r' + [',']) + [s[n]];
        assert (r' + [','])[..|r'|] == r';
        assert CommasInserted(s[..n], r' + [',']);
      } else {
        assert r == r' + [s[n]];
      }
      assert r[..|r| - 1] == r' + (if marks[n] then [','] else []);
    }
  }

  /** The source's `numberWithCommas` on the string it formats. */
  function NumberWithCommas(s: seq<char>): (r: seq<char>)
    // only commas are added: one per insertion point, none anywhere else
    ensures |r| == |s| + CountMarks(Marks(s))
    ensures StripCommas(r) == StripCommas(s)
  {
    InterleaveLength(s, Marks(s));
    InterleaveStripped(s, Marks(s));
    Interleave(s, Marks(s))
  }

  /** The rewrite only inserts commas: removing the commas of the output gives the
      input's comma-free content back, every added character is a comma, and the
      output begins and ends with the input's own first and last characters. */
  lemma InsertsOnlyCommas(s: seq<char>)
    ensures var r := NumberWithCommas(s);
      && |r| >= |s|
      && StripCommas(r) == StripCommas(s)
      && |r| - |s| == CommaCount(r) - CommaCount(s)
      && (|s| > 0 ==> r[0] == s[0] && r[|r| - 1] == s[|s| - 1])
      && CommasInserted(s, r)
  {
    InterleaveInsertsCommas(s, Marks(s));
    InterleaveLength(s, Marks(s));
    InterleaveStripped(s, Marks(s));
    InterleaveCommaCount(s, Marks(s));
    if |s| > 0 {
      InterleaveEnds(s, Marks(s));
    }
  }

  // ---------------------------------------------------------------------------
  // Commas, counted and removed
  // ---------------------------------------------------------------------------

  function CountMarks(m: seq<bool>): (n: nat)
    ensures n <= |m|
  {
    if |m| == 0 then 0 else CountMarks(m[..|m| - 1]) + (if m[|m| - 1] then 1 else 0)
  }

  /** The number of commas in t: the characters that stripping commas removes. */
  function CommaCount(t: seq<char>): nat {
    |t| - |StripCommas(t)|
  }

  lemma CommaCountAppend(a: seq<char>, b: seq<char>)
    ensures CommaCount(a + b) == CommaCount(a) + CommaCount(b)
  {
    StripCommasAppend(a, b);
  }

  /** `t.replace(/,/g, "")`. */
  function StripCommas(t: seq<char>): (r: seq<char>)
    ensures ',' !in r
    ensures |r| <= |t|
  {
    if |t| == 0 then []
    else StripCommas(t[..|t| - 1]) + (if t[|t| - 1] == ',' then [] else [t[|t| - 1]])
  }

  lemma {:induction false} StripCommasAppend(a: seq<char>, b: seq<char>)
    ensures StripCommas(a + b) == StripCommas(a) + StripCommas(b)
    decreases |b|
  {
    if |b| == 0 {
      assert a + b == a;
    } else {
      var n := |b| - 1;
      assert (a + b)[..|a + b| - 1] == a + b[..n];
      StripCommasAppend(a, b[..n]);
    }
  }

  lemma {:induction false} StripCommasIdentity(t: seq<char>)
    requires ',' !in t
    ensures StripCommas(t) == t
    decreases |t|
  {
    if |t| > 0 {
      var n := |t| - 1;
      assert t[n] != ',' && ',' !in t[..n];
      calc {
        StripCommas(t);
        StripCommas(t[..n]) + [t[n]];
        { StripCommasIdentity(t[..n]); }
        t[..n] + [t[n]];
        t;
      }
    }
  }

  // ---------------------------------------------------------------------------
  // The regular expression and the executable reading agree
  // ---------------------------------------------------------------------------

  /** A digit run is determined by where it ends: any all-digit stretch that is not
      followed by a digit is the maximal run. */
  lemma RunLength(s: seq<char>, i: nat, len: nat)
    requires i + len <= |s|
    requires forall j :: i <= j < i + len ==> IsDigit(s[j])
    requires i + len == |s| || !IsDigit(s[i + len])
    ensures DigitRun(s, i) == len
  {
  }

  /** The regex `\B(?=(\d{3})+(?!\d))` matches at index i exactly where
      `CommaBefore` says a comma goes in. */
  lemma RegexMatchesExactly(s: seq<char>, i: nat)
    requires i <= |s|
    ensures RegexMatchesAt(s, i) <==> CommaBefore(s, i)
  {
    if RegexMatchesAt(s, i) {
      var k: nat :| DigitGroupsAt(s, i, k);
      RunLength(s, i, 3 * k);
      assert IsDigit(s[i]);
    }
    if CommaBefore(s, i) {
      var k: nat := DigitRun(s, i) / 3;
      assert DigitGroupsAt(s, i, k);
    }
  }

  // ---------------------------------------------------------------------------
  // Structural facts about Interleave
  // ---------------------------------------------------------------------------

  lemma {:induction false} InterleaveAppend(a: seq<char>, ma: seq<bool>, b: seq<char>, mb: seq<bool>)
    requires |ma| == |a| && |mb| == |b|
    ensures Interleave(a + b, ma + mb) == Interleave(a, ma) + Interleave(b, mb)
    decreases |b|
  {
    if |b| == 0 {
      assert a + b == a;
      assert ma + mb == ma;
    } else {
      var n := |b| - 1;
      var s, m := a + b, ma + mb;
      var tail := if mb[n] then [',', b[n]] else [b[n]];
      assert s[..|s| - 1] == a + b[..n];
      assert m[..|s| - 1] == ma + mb[..n];
      InterleaveAppend(a, ma, b[..n], mb[..n]);
      calc {
        Interleave(s, m);
        Interleave(a + b[..n], ma + mb[..n]) + tail;
        Interleave(a, ma) + Interleave(b[..n], mb[..n]) + tail;
        Interleave(a, ma) + Interleave(b, mb);
      }
    }
  }

  lemma {:induction false} InterleaveNoMarks(s: seq<char>, marks: seq<bool>)
    requires |marks| == |s|
    requires forall i :: 0 <= i < |marks| ==> !marks[i]
    ensures Interleave(s, marks) == s
    decreases |s|
  {
    if |s| > 0 {
      var n := |s| - 1;
      InterleaveNoMarks(s[..n], marks[..n]);
      assert s == s[..n] + [s[n]];
    }
  }

  /** A string with no insertion point comes back unchanged. */
  lemma NoInsertionPointsUnchanged(t: seq<char>)
    requires forall i :: 0 <= i < |t| ==> !CommaBefore(t, i)
    ensures NumberWithCommas(t) == t
  {
    InterleaveNoMarks(t, Marks(t));
  }

  /** On a string of digits the run from i reaches the end, so the insertion points
      are the indices a positive multiple of three away from the end. */
  lemma AllDigitsMarks(d: seq<char>)
    requires AllDigits(d)
    ensures forall i :: 0 <= i < |d| ==> Marks(d)[i] == (0 < i && (|d| - i) % 3 == 0)
  {
    forall i | 0 <= i < |d|
      ensures Marks(d)[i] == (0 < i && (|d| - i) % 3 == 0)
    {
      RunLength(d, i, |d| - i);
    }
  }

  /** A string of at most three digits comes back unchanged. */
  lemma ShortDigitsUnchanged(d: seq<char>)
    requires AllDigits(d) && |d| <= 3
    ensures NumberWithCommas(d) == d
  {
    AllDigitsMarks(d);
    InterleaveNoMarks(d, Marks(d));
  }

  // ---------------------------------------------------------------------------
  // Digits are grouped in threes from the right
  // ---------------------------------------------------------------------------

  /** Reference grouping: split off the last three digits, group the rest. */
  function GroupThousands(d: seq<char>): (r: seq<char>)
    decreases |d|
  {
    if |d| <= 3 then d else GroupThousands(d[..|d| - 3]) + [','] + d[|d| - 3..]
  }

  /** Splitting off the last three digits: the first of them gets a comma, the
      others none, and the insertion points before them are unchanged. */
  lemma MarksSplitLastThree(d: seq<char>)
    requires AllDigits(d) && |d| > 3
    ensures Marks(d) == Marks(d[..|d| - 3]) + [true, false, false]
  {
    AllDigitsMarks(d);
    AllDigitsMarks(d[..|d| - 3]);
  }

  lemma InterleaveCommaFirst(b: seq<char>)
    requires |b| == 3
    ensures Interleave(b, [true, false, false]) == [','] + b
  {
    var m := [true, false, false];
    assert m[..2] == [true, false] && m[..2][..1] == [true];
    assert b[..2][..1] == [b[0]];
    calc {
      Interleave(b, m);
      Interleave(b[..2], m[..2]) + [b[2]];
      Interleave(b[..2][..1], m[..2][..1]) + [b[1]] + [b[2]];
      Interleave([b[0]], [true]) + [b[1]] + [b[2]];
      { assert [b[0]][..0] == [] && [true][..0] == []; }
      [',', b[0]] + [b[1]] + [b[2]];
    }
  }

  /** On a string of digits, the regex rewrite is the right-to-left grouping. */
  lemma {:induction false} DigitsGroupedFromRight(d: seq<char>)
    requires AllDigits(d)
    ensures NumberWithCommas(d) == GroupThousands(d)
    decreases |d|
  {
    if |d| <= 3 {
      ShortDigitsUnchanged(d);
    } else {
      var n := |d| - 3;
      var a, b := d[..n], d[n..];
      assert AllDigits(a);
      calc {
        NumberWithCommas(d);
        Interleave(d, Marks(d));
        { MarksSplitLastThree(d); assert d == a + b; }
        Interleave(a + b, Marks(a) + [true, false, false]);
        { InterleaveAppend(a, Marks(a), b, [true, false, false]); }
        Interleave(a, Marks(a)) + Interleave(b, [true, false, false]);
        { InterleaveCommaFirst(b); }
        NumberWithCommas(a) + [','] + b;
        { DigitsGroupedFromRight(a); }
        GroupThousands(a) + [','] + b;
      }
    }
  }

  /** `t.split(",")`, as JavaScript splits: an empty string gives one empty group. */
  function SplitOnCommas(t: seq<char>): (gs: seq<seq<char>>)
    ensures |gs| >= 1
    decreases |t|
  {
    if |t| == 0 then [[]]
    else
      var n := |t| - 1;
      var gs := SplitOnCommas(t[..n]);
      if t[n] == ',' then gs + [[]]
      else gs[..|gs| - 1] + [gs[|gs| - 1] + [t[n]]]
  }

  /** The groups of a split laid end to end. */
  function Concat(gs: seq<seq<char>>): seq<char>
    decreases |gs|
  {
    if |gs| == 0 then [] else Concat(gs[..|gs| - 1]) + gs[|gs| - 1]
  }

  lemma {:induction false} SplitCommaFree(t: seq<char>)
    requires ',' !in t
    ensures SplitOnCommas(t) == [t]
    decreases |t|
  {
    if |t| > 0 {
      var n := |t| - 1;
      SplitCommaFree(t[..n]);
      assert t == t[..n] + [t[n]];
    }
  }

  lemma {:induction false} SplitAfterComma(x: seq<char>, y: seq<char>)
    requires ',' !in y
    ensures SplitOnCommas(x + [','] + y) == SplitOnCommas(x) + [y]
    decreases |y|
  {
    if |y| == 0 {
      assert x + [','] + y == x + [','];
      assert (x + [','])[..|x|] == x;
    } else {
      var n := |y| - 1;
      var t := x + [','] + y;
      assert t[..|t| - 1] == x + [','] + y[..n];
      SplitAfterComma(x, y[..n]);
      assert y == y[..n] + [y[n]];
    }
  }

  /** A string of digits has no comma to strip; stated once so the proofs below
      need not rediscover it. */
  lemma DigitsHaveNoComma(d: seq<char>)
    requires AllDigits(d)
    ensures ',' !in d
  {
  }

  lemma {:induction false} GroupThousandsCommas(d: seq<char>)
    requires AllDigits(d) && |d| > 0
    ensures CommaCount(GroupThousands(d)) == (|d| - 1) / 3
    decreases |d|
  {
    if |d| <= 3 {
      DigitsHaveNoComma(d);
      StripCommasIdentity(d);
    } else {
      var n := |d| - 3;
      var a, b := d[..n], d[n..];
      var ga := GroupThousands(a);
      calc {
        CommaCount(GroupThousands(d));
        CommaCount(ga + [','] + b);
        { CommaCountAppend(ga + [','], b); }
        CommaCount(ga + [',']) + CommaCount(b);
        { DigitsHaveNoComma(b); StripCommasIdentity(b); }
        CommaCount(ga + [',']);
        { CommaCountAppend(ga, [',']); assert StripCommas([',']) == []; }
        CommaCount(ga) + 1;
        { assert AllDigits(a); GroupThousandsCommas(a); }
        (|a| - 1) / 3 + 1;
      }
    }
  }

  /** A first group of one to three characters, then groups of exactly three. */
  predicate ThousandsGroups(gs: seq<seq<char>>) {
    && |gs| >= 1
    && 1 <= |gs[0]| <= 3
    && (forall j :: 1 <= j < |gs| ==> |gs[j]| == 3)
  }

  lemma AppendGroup(gs: seq<seq<char>>, b: seq<char>)
    requires ThousandsGroups(gs) && |b| == 3
    ensures ThousandsGroups(gs + [b])
    ensures Concat(gs + [b]) == Concat(gs) + b
  {
    assert (gs + [b])[..|gs|] == gs;
  }

  /** The groups a split of the grouped digits should produce. */
  predicate SplitsIntoThousands(d: seq<char>, gs: seq<seq<char>>) {
    ThousandsGroups(gs) && |gs| == (|d| - 1) / 3 + 1 && Concat(gs) == d
  }

  lemma GroupThousandsSplitShort(d: seq<char>)
    requires AllDigits(d) && 0 < |d| <= 3
    ensures SplitsIntoThousands(d, SplitOnCommas(GroupThousands(d)))
  {
    DigitsHaveNoComma(d);
    SplitCommaFree(d);
    assert Concat([d]) == Concat([]) + d;
  }

  lemma GroupThousandsSplitStep(a: seq<char>, b: seq<char>)
    requires |a| > 0 && |b| == 3 && AllDigits(b)
    requires SplitsIntoThousands(a, SplitOnCommas(GroupThousands(a)))
    ensures SplitsIntoThousands(a + b, SplitOnCommas(GroupThousands(a + b)))
  {
    var d := a + b;
    assert d[..|d| - 3] == a && d[|d| - 3..] == b;
    var ga := GroupThousands(a);
    var gsa := SplitOnCommas(ga);
    DigitsHaveNoComma(b);
    SplitAfterComma(ga, b);
    AppendGroup(gsa, b);
  }

  lemma {:induction false} GroupThousandsSplit(d: seq<char>)
    requires AllDigits(d) && |d| > 0
    ensures SplitsIntoThousands(d, SplitOnCommas(GroupThousands(d)))
    decreases |d|
  {
    if |d| <= 3 {
      GroupThousandsSplitShort(d);
    } else {
      var n := |d| - 3;
      var a, b := d[..n], d[n..];
      assert AllDigits(a) && AllDigits(b) && a + b == d;
      GroupThousandsSplit(a);
      GroupThousandsSplitStep(a, b);
    }
  }

  /** For a string of digits, splitting the output on commas gives a first group of
      one to three digits, then groups of exactly three, which laid end to end give
      the input back; there are (|d| - 1) / 3 commas. */
  lemma GroupsOfThree(d: seq<char>)
    requires AllDigits(d) && |d| > 0
    ensures var gs := SplitOnCommas(NumberWithCommas(d));
      && |gs| == (|d| - 1) / 3 + 1
      && 1 <= |gs[0]| <= 3
      && (forall j :: 1 <= j < |gs| ==> |gs[j]| == 3)
      && Concat(gs) == d
    ensures CommaCount(NumberWithCommas(d)) == (|d| - 1) / 3
  {
    DigitsGroupedFromRight(d);
    GroupThousandsSplit(d);
    GroupThousandsCommas(d);
  }

  /** Applying the formatter to its own output on a string of digits changes
      nothing. */
  lemma DigitsIdempotent(d: seq<char>)
    requires AllDigits(d)
    ensures NumberWithCommas(NumberWithCommas(d)) == NumberWithCommas(d)
  {
    DigitsGroupedFromRight(d);
    GroupedHasNoInsertionPoints(d);
    NoInsertionPointsUnchanged(GroupThousands(d));
  }

  /** A digit run that stays inside x is not lengthened by appending y when y does
      not start with a digit. */
  lemma RunInPrefix(x: seq<char>, y: seq<char>, i: nat)
    requires i <= |x|
    requires |y| == 0 || !IsDigit(y[0])
    ensures DigitRun(x + y, i) == DigitRun(x, i)
  {
    RunLength(x + y, i, DigitRun(x, i));
  }

  lemma {:induction false} GroupedHasNoInsertionPoints(d: seq<char>)
    requires AllDigits(d)
    ensures forall i :: 0 <= i < |GroupThousands(d)| ==> !CommaBefore(GroupThousands(d), i)
    decreases |d|
  {
    var t := GroupThousands(d);
    if |d| <= 3 {
      AllDigitsMarks(d);
      assert forall i :: 0 <= i < |d| ==> Marks(d)[i] == CommaBefore(d, i);
    } else {
      var n := |d| - 3;
      var a, b := d[..n], d[n..];
      GroupedHasNoInsertionPoints(a);
      var ga := GroupThousands(a);
      var rest := [','] + b;
      assert t == ga + rest;
      forall i | 0 <= i < |t|
        ensures !CommaBefore(t, i)
      {
        if i < |ga| {
          RunInPrefix(ga, rest, i);
          assert !CommaBefore(ga, i);
        } else if i == |ga| + 2 {
          RunLength(t, i, 2);
        } else if i == |ga| + 3 {
          RunLength(t, i, 1);
        }
      }
    }
  }

  // ---------------------------------------------------------------------------
  // The inputs the storefront passes: the output of `toFixed(2)`
  // ---------------------------------------------------------------------------

  /** The shape of `n.toFixed(2)` for a finite n: an optional minus sign, the
      integer digits, a point, two decimals. */
  predicate IsFixedTwo(sign: seq<char>, intPart: seq<char>, frac: seq<char>) {
    && (sign == [] || sign == ['-'])
    && |intPart| > 0 && AllDigits(intPart)
    && |frac| == 2 && AllDigits(frac)
  }

  function NoMarks(n: nat): (m: seq<bool>)
    ensures |m| == n && forall i :: 0 <= i < n ==> !m[i]
  {
    seq(n, _ => false)
  }

  /** Regrouping a concatenation; stated once so that the proofs about `[-]d+.dd`
      do not each pay for the sequence extensionality it takes. */
  lemma AppendAssoc<T>(a: seq<T>, b: seq<T>, c: seq<T>)
    ensures a + b + c == a + (b + c)
  {
  }

  /** A digit run inside y is the same run once x is put in front of y. */
  lemma DigitRunShift(x: seq<char>, y: seq<char>, i: nat)
    requires i <= |y|
    ensures DigitRun(x + y, |x| + i) == DigitRun(y, i)
  {
    RunLength(x + y, |x| + i, DigitRun(y, i));
  }

  /** Insertion points never straddle a non-digit: those of x + y are those of x
      followed by those of y when y starts with a non-digit. */
  lemma MarksAppend(x: seq<char>, y: seq<char>)
    requires |y| > 0 && !IsDigit(y[0])
    ensures Marks(x + y) == Marks(x) + Marks(y)
  {
    var t := x + y;
    forall i | 0 <= i < |t|
      ensures Marks(t)[i] == (Marks(x) + Marks(y))[i]
    {
      if i < |x| {
        RunInPrefix(x, y, i);
        assert t[i] == x[i];
        if 0 < i {
          assert t[i - 1] == x[i - 1];
        }
      } else {
        DigitRunShift(x, y, i - |x|);
        assert t[i] == y[i - |x|];
        if |x| < i {
          assert t[i - 1] == y[i - |x| - 1];
        }
      }
    }
  }

  /** A character that is not a word character shields what follows it. */
  lemma MarksAfterNonWord(c: char, y: seq<char>)
    requires !IsWordChar(c)
    ensures Marks([c] + y) == [false] + Marks(y)
  {
    var t := [c] + y;
    forall i | 0 <= i < |t|
      ensures Marks(t)[i] == ([false] + Marks(y))[i]
    {
      if 1 < i {
        DigitRunShift([c], y, i - 1);
        assert t[i] == y[i - 1] && t[i - 1] == y[i - 2];
      }
    }
  }

  /** In `[-]d+.dd` only the integer digits can receive a comma, exactly where they
      would on their own. */
  lemma FixedTwoMarks(sign: seq<char>, intPart: seq<char>, frac: seq<char>)
    requires IsFixedTwo(sign, intPart, frac)
    ensures Marks(sign + intPart + (['.'] + frac))
         == NoMarks(|sign|) + Marks(intPart) + NoMarks(3)
  {
    MarksAppend(sign + intPart, ['.'] + frac);
    MarksAfterNonWord('.', frac);
    AllDigitsMarks(frac);
    assert Marks(frac) == [false, false];
    if sign == ['-'] {
      MarksAfterNonWord('-', intPart);
    } else {
      assert sign + intPart == intPart;
    }
  }

  /** Interleaving around a stretch that receives no marks on either side. */
  lemma InterleaveMiddle(a: seq<char>, b: seq<char>, mb: seq<bool>, c: seq<char>)
    requires |mb| == |b|
    ensures Interleave(a + b + c, NoMarks(|a|) + mb + NoMarks(|c|)) == a + Interleave(b, mb) + c
  {
    InterleaveAppend(a + b, NoMarks(|a|) + mb, c, NoMarks(|c|));
    InterleaveAppend(a, NoMarks(|a|), b, mb);
    InterleaveNoMarks(a, NoMarks(|a|));
    InterleaveNoMarks(c, NoMarks(|c|));
  }

  /** For `[-]d+.dd`, the sign, the point and the two decimals are untouched, and
      the integer part is grouped in threes from the right. */
  lemma FixedTwoFormatting(sign: seq<char>, intPart: seq<char>, frac: seq<char>)
    requires IsFixedTwo(sign, intPart, frac)
    ensures NumberWithCommas(sign + intPart + ['.'] + frac)
         == sign + GroupThousands(intPart) + ['.'] + frac
  {
    var rest := ['.'] + frac;
    AppendAssoc(sign + intPart, ['.'], frac);
    AppendAssoc(sign + GroupThousands(intPart), ['.'], frac);
    FixedTwoMarks(sign, intPart, frac);
    InterleaveMiddle(sign, intPart, Marks(intPart), rest);
    DigitsGroupedFromRight(intPart);
  }

  /** The integer part of `[-]d+.dd` receives (|intPart| - 1) / 3 commas, and
      nothing else does. */
  lemma FixedTwoCommaCount(sign: seq<char>, intPart: seq<char>, frac: seq<char>)
    requires IsFixedTwo(sign, intPart, frac)
    ensures CommaCount(NumberWithCommas(sign + intPart + ['.'] + frac)) == (|intPart| - 1) / 3
  {
    FixedTwoFormatting(sign, intPart, frac);
    AppendAssoc(sign + GroupThousands(intPart), ['.'], frac);
    assert ',' !in ['.'] + frac;
    GroupedCommaCount(sign, intPart, ['.'] + frac);
  }

  lemma GroupedCommaCount(sign: seq<char>, intPart: seq<char>, rest: seq<char>)
    requires sign == [] || sign == ['-']
    requires |intPart| > 0 && AllDigits(intPart)
    requires ',' !in rest
    ensures CommaCount(sign + GroupThousands(intPart) + rest) == (|intPart| - 1) / 3
  {
    var g := GroupThousands(intPart);
    GroupThousandsCommas(intPart);
    StripCommasIdentity(sign);
    StripCommasIdentity(rest);
    CommaCountAppend(sign, g);
    CommaCountAppend(sign + g, rest);
  }

  // ---------------------------------------------------------------------------
  // Where the inserted commas sit
  // ---------------------------------------------------------------------------

  /** Marks only in front of a digit that follows a word character. */
  predicate WellPlaced(s: seq<char>, marks: seq<bool>)
    requires |marks| == |s|
  {
    forall i :: 0 <= i < |s| && marks[i] ==> 0 < i && IsWordChar(s[i - 1]) && IsDigit(s[i])
  }

  /** Every comma of r sits strictly inside it, after a word character and before
      a digit. */
  predicate CommasBetweenWordAndDigit(r: seq<char>) {
    forall k :: 0 <= k < |r| && r[k] == ',' ==>
      0 < k < |r| - 1 && IsWordChar(r[k - 1]) && IsDigit(r[k + 1])
  }

  lemma {:induction false} InterleaveCommasWellPlaced(s: seq<char>, marks: seq<bool>)
    requires |marks| == |s| && ',' !in s && WellPlaced(s, marks)
    ensures CommasBetweenWordAndDigit(Interleave(s, marks))
    decreases |s|
  {
    if |s| > 0 {
      var n := |s| - 1;
      var s', m' := s[..n], marks[..n];
      var r' := Interleave(s', m');
      var r := Interleave(s, marks);
      assert r == r' + (if marks[n] then [',', s[n]] else [s[n]]);
      assert ',' !in s' && WellPlaced(s', m');
      InterleaveCommasWellPlaced(s', m');
      forall k | 0 <= k < |r| && r[k] == ','
        ensures 0 < k < |r| - 1 && IsWordChar(r[k - 1]) && IsDigit(r[k + 1])
      {
        if k < |r'| {
          assert r'[k] == ',';
          assert r[k - 1] == r'[k - 1] && r[k + 1] == r'[k + 1];
        } else {
          InterleaveEnds(s', m');
          assert marks[n] && k == |r'|;
          assert 0 < n && IsWordChar(s[n - 1]) && IsDigit(s[n]);
          assert r[k - 1] == r'[|r'| - 1] == s'[n - 1] == s[n - 1];
          assert r[k + 1] == s[n];
        }
      }
    }
  }

  /** For input without commas of its own, every comma of the output sits strictly
      inside it, after a word character and before a digit; so a leading `-` or `$`
      is never followed by an inserted comma. */
  lemma InsertedCommasPlacement(s: seq<char>)
    requires ',' !in s
    ensures CommasBetweenWordAndDigit(NumberWithCommas(s))
  {
    assert WellPlaced(s, Marks(s));
    assert NumberWithCommas(s) == Interleave(s, Marks(s));
    InterleaveCommasWellPlaced(s, Marks(s));
  }

  /** For input without commas of its own, deleting every comma of the output gives
      the input back exactly. */
  lemma CommaFreeRoundTrip(s: seq<char>)
    requires ',' !in s
    ensures StripCommas(NumberWithCommas(s)) == s
  {
    InsertsOnlyCommas(s);
    StripCommasIdentity(s);
  }
}

=== FILE: wrappers.dfy ===
/** Small datatypes shared by the storefront modules. */
module Wrappers {

  /** An optional value; JavaScript's `null` / missing property. */
  datatype Option<+T> = None | Some(value: T)

  /** The settled outcome of one HTTP request. The transport itself (axios, promises,
      the bearer token) is not modelled: a request either resolves with a body or is
      rejected with a cause. */
  datatype Response<+T> = Ok(body: T) | Failed(cause: string)
}
